=== FILE: README.md ===
# Page interactivity controllers, modelled in Dafny

A model of `script.js`, the client-side behaviour of a brochure website. The
script wires nine independent controllers to the page at load time. Every
controller here except the mouse-driven liquid distortion effect is modelled. Each one
becomes immutable state records plus pure transition functions, one per event.
DOM reads (offsets, attributes, media queries, storage) become parameters. DOM
writes become returned records. Pixel values are integers.

- `Dom`: an optional value (`null`/`undefined`), JavaScript truthiness of
  string-or-null values, and `String(bool)`.
- `Strings`: `String.prototype.trim`, using ECMAScript's white-space and
  line-terminator sets.
- `MobileNav`: the menu state is the nav's `active` class, the toggle's
  `aria-expanded` and the body's `overflow`. Events are a toggle click, a
  nav-link click, other clicks (which bubble to the document listener) and key
  presses.
- `SmoothScroll`: for an in-page anchor click, whether the default is prevented
  and where the page scrolls to.
- `ContactForm`: the submit button (which may be missing), its confirmation
  and its timed restore with the form reset, plus per-field error borders on
  blur and input.
- `HeaderScroll`: the `scrolled` class at a strict 50 px threshold.
- `ActiveNav`: the last section whose trigger band contains the scroll offset,
  and the `aria-current` marks on the nav links.
- `Reveal`: the one-shot fade-in engine and its reduced-motion guard.
- `VideoAutoplay`: the two-way play/pause watcher for the background video.
- `PlanPrefill`: the templated contact message for a chosen pricing plan.
- `Theme`: the stored preference, the current theme and the attributes that
  `applyTheme` last wrote. Events are load, toggle and platform colour-scheme
  changes.

## Model

| member | source | states |
|---|---|---|
| Strings.Trim | script.js:118 | `value.trim()` is the slice of the value between its leading and its trailing white space, and keeps no white space at either end |
| Strings.TrimEmptyIffAllWhitespace | script.js:118 | `!value.trim()` holds exactly when the value has only white space or is empty |
| Strings.TrimIdempotent | script.js:118 | trimming an already-trimmed value changes nothing |
| Strings.TrimStart | script.js:118 | the result is the suffix starting at the first non-white-space character; everything dropped is white space |
| Strings.TrimEnd | script.js:118 | the result is the prefix ending at the last non-white-space character; everything dropped is white space |
| Dom.BoolTextRoundTrip | script.js:12-13 | writing `String(!isExpanded)` and reading it back with `=== "true"` recovers the flag |
| Dom.OrElse | script.js:292 | the or-default of a string-or-null value is the value when it is truthy and the fallback otherwise |
| MobileNav.OnToggleClick | script.js:11-16 | the class flips; `aria-expanded` becomes `"true"` exactly when it did not read `"true"`, and is always `"true"` or `"false"`; overflow becomes `"hidden"` when the new attribute is `"true"` and `""` otherwise; agreement is kept |
| MobileNav.OnLinkClick | script.js:19-25 | a link click always leaves the menu closed, the attribute `"false"` and scrolling unlocked |
| MobileNav.OnDocumentClick | script.js:28-38 | an outside click closes an open menu; any other click, or a click on a closed menu, changes nothing |
| MobileNav.OnKeyDown | script.js:41-48 | Escape closes an open menu; any other key, or Escape on a closed menu, changes nothing |
| MobileNav.Dispatch | script.js:8-48 | without the toggle or the nav no event has an effect; every click or key event keeps class, `aria-expanded` and `overflow` in agreement |
| MobileNav.RunPreservesConsistent | script.js:4-48 | over any event sequence the three stay in agreement, so scrolling is locked exactly while the menu is open |
| MobileNav.ToggleFlipsAllThree | script.js:11-16 | on a consistent menu, a toggle click (plus the bubbling document listener) flips the class, the `"true"` reading of `aria-expanded` and the scroll lock together, and the result is consistent |
| MobileNav.ClosingEventsClose | script.js:19-48 | a link click always closes (class off, `"false"`, `""`); an outside click or Escape closes an open menu and changes nothing on a closed one |
| MobileNav.OtherEventsIgnored | script.js:28-48 | clicks inside the nav off the links, and keys other than Escape, change nothing |
| MobileNav.ToggleTwiceIsIdentity | script.js:11-16 | two toggle clicks restore a consistent state whose attribute is `"true"` or `"false"` |
| MobileNav.ToggleKeepsDisagreement | script.js:11-16 | the toggle reads the attribute but flips the class, so once they disagree toggling never reconciles them; a link click does |
| MobileNav.InitialPageConsistent | script.js:12-15 | a page loaded closed, with `aria-expanded` absent or `"false"` and no inline overflow, starts consistent |
| SmoothScroll.HeaderHeight | script.js:67-68 | the header height is 0 when there is no `.header` |
| SmoothScroll.OnAnchorClick | script.js:57-79 | bare `#`: default prevented and no scroll; target found: default prevented and a scroll is requested; nothing found: default not prevented and no scroll |
| SmoothScroll.PreventDefaultIffHandled | script.js:59-66 | the default is prevented iff the href is `#` or the selector finds a target; a scroll is requested iff a target is found and the href is not `#` |
| SmoothScroll.ScrollGoal | script.js:67-74 | the `top` requested from `scrollTo` is the target's viewport top plus `pageYOffset` less the header height, with no subtraction when there is no header |
| SmoothScroll.GoalIndependentOfCurrentScroll | script.js:69-72 | the requested goal depends only on the target's document position: scrolling the page further beforehand asks for the same goal |
| HeaderScroll.ToggleClass | script.js:139 | `classList.toggle(name, force)` leaves `name` present iff `force` and touches no other class |
| HeaderScroll.OnScroll | script.js:137-140 | `scrolled` is present iff the offset is strictly greater than 50; other classes are unchanged |
| HeaderScroll.ThresholdIsStrictAndMonotone | script.js:138 | offset 50 is not scrolled and 51 is; scrolled at one offset implies scrolled at every larger one |
| HeaderScroll.LatestOffsetWins | script.js:137-146 | the header's state depends only on the most recent offset, not on earlier calls |
| ActiveNav.CurrentSection | script.js:166-173 | the result is `""` when no band contains `y`, and otherwise the id of the last section in document order whose band `[top-120, top-120+height)` contains `y` |
| ActiveNav.ScanSections | script.js:166-173 | the source's overwrite loop computes that last-match value |
| ActiveNav.ScanStep | script.js:169-173 | each further section overwrites `current` exactly when its band contains `y` |
| ActiveNav.SetActive | script.js:157-164 | hrefs are kept; exactly the links whose href is `"#"+id` carry `aria-current`, with value `"page"`; all others have none |
| ActiveNav.OnScroll | script.js:157-175 | hrefs are kept; with no match, or a last match with an empty id, the links are left as they were; with a last match whose id is non-empty, exactly the links pointing at it are marked `"page"` and the others are cleared |
| ActiveNav.OnScrollIdempotent | script.js:166-178 | handling the same offset twice gives the same links as handling it once |
| ActiveNav.GuardIsInvisible | script.js:153-155 | with no sections or no links, the handler would change nothing, so the load-time guard has no visible effect |
| ActiveNav.OverlappingBandsPickLast | script.js:169-173 | three overlapping bands pick the last section; a non-containing last section is skipped; no match gives `""` |
| ContactForm.OnSubmit | script.js:90-112 | with a submit button: it shows "Message Sent!", is disabled, and one restore is scheduled 3000 ms later carrying the button's previous text; without one the listener throws and nothing changes; fields are untouched either way |
| ContactForm.RequestSubmit | script.js:90-104 | a disabled button blocks submission when it is the form's only submit control; from a quiet form with an enabled button exactly one restore, carrying the current label, is pending afterwards |
| ContactForm.OnTimer | script.js:106-111 | before the due time nothing changes; when the restore fires every field's value returns to its default while `required`, the default and the border stay, and the button gets back the captured label, no background and enabled |
| ContactForm.OnBlur | script.js:117-123 | blur sets the error border iff the field is required and blank after trimming, clears it otherwise, and changes nothing else |
| ContactForm.OnInput | script.js:124-126 | input stores the new value and leaves the field with no border, whatever the value; nothing else changes |
| ContactForm.StepPreservesQuiet | script.js:90-127 | every event keeps at most one pending restore, with the button disabled exactly while one is pending |
| ContactForm.RunPreservesQuiet | script.js:86-127 | a quiet form stays quiet through any sequence of submits, ticks, blurs and inputs |
| ContactForm.LoadedFormIsQuiet | script.js:86-104 | the form as loaded (button enabled or absent, nothing pending) is quiet |
| ContactForm.SubmitShowsConfirmationOnce | script.js:100-104 | submit shows "Message Sent!" and disables the button; another submit while disabled has no effect |
| ContactForm.NoSubmitButtonNoConfirmation | script.js:100-101 | without a `button[type="submit"]` the listener fails before writing, so no event sequence ever schedules a restore or creates a button |
| ContactForm.TimerRestoresButton | script.js:106-111 | at exactly 3000 ms the captured label returns, the background clears and the button is enabled; every field's value is back at its default while its other properties stay; at 2999 ms nothing changes |
| ContactForm.FlaggedFieldKeepsBorderAfterRestore | script.js:106-126 | a required field flagged blank by blur keeps the error border after the restore although its value is back at the default, because the reset fires no `input` event |
| ContactForm.UngatedResubmitKeepsConfirmation | script.js:100-111 | were the listener run twice before the restore, the label would stay "Message Sent!" for good, which is why the disabled gate matters |
| Reveal.HideTargets | script.js:194-200 | every target becomes opacity `"0"` / `translateY(16px)` with the ordinal of its last collection position; non-targets are untouched |
| Reveal.Init | script.js:185-200 | with reduced motion, styles are untouched and nothing is observed; otherwise exactly the targets are observed |
| Reveal.Callback | script.js:203-211 | each target with an intersecting entry becomes opacity `"1"` / `translateY(0)` and is unobserved; every other element keeps its style and observation |
| Reveal.StillObserved | script.js:208 | a delivered batch holds exactly the entries for elements still observed |
| Reveal.Deliver | script.js:202-213 | the observed set only shrinks; an unobserved element keeps its style; an observed element with an intersecting entry is shown and unobserved; one without keeps its style and stays observed |
| Reveal.DeliverAll | script.js:202-213 | deliveries never add observed elements |
| Reveal.UnobservedIsFrozen | script.js:208 | an unobserved element keeps its style through any later deliveries |
| Reveal.ReducedMotionTouchesNothing | script.js:185 | with reduced motion, no element's style is ever changed, whatever the platform reports |
| Reveal.InitHidesEveryTarget | script.js:194-196 | without reduced motion, every target starts hidden and observed |
| Reveal.RevealIsOneShot | script.js:204-209 | an intersecting report shows an observed element and unobserves it; no later report changes it |
| Reveal.InitSettles | script.js:194-200 | after load every target is either hidden and observed or shown and unobserved |
| Reveal.DeliverKeepsSettled | script.js:203-211 | each delivery keeps that; an element leaves the observed set only by being shown |
| VideoAutoplay.HandleVideo | script.js:240-250 | after a non-empty batch, the `playing` class and play/pause follow the last report; an empty batch changes nothing |
| VideoAutoplay.OnReports | script.js:236-257 | without the video element, with reduced motion, or for an empty batch nothing changes; otherwise the class and the media call follow the last report |
| VideoAutoplay.ClassFollowsLatestReport | script.js:240-250 | the class is present iff the most recent report is intersecting, in both directions |
| VideoAutoplay.ReducedMotionLeavesVideoAlone | script.js:185-257 | the video watcher is set up after the reduced-motion return, so with reduced motion the video is never touched |
| PlanPrefill.ChosenPlan | script.js:274 | the plan is `data-plan` when that is non-empty, and "Starter" otherwise |
| PlanPrefill.Message | script.js:274-275 | the message opens with "Hi! I'm interested in the ", ends with " plan. Please share more details." and names exactly the chosen plan in between |
| PlanPrefill.PlanOf | script.js:275 | a plan read back from a message rebuilds that message through the template |
| PlanPrefill.MessageNamesPlan | script.js:274-275 | the message written names exactly the chosen plan, read back through the template |
| PlanPrefill.PlanOfInvertsMessage | script.js:275 | any message that reads back as a non-empty plan is exactly what that plan's button writes |
| Theme.InitialTheme | script.js:290-292 | a non-empty stored value wins; otherwise the theme is dark iff the platform prefers dark |
| Theme.Apply | script.js:310-324 | `data-theme` is the theme; `aria-pressed` is `"true"` iff dark and `"false"` otherwise; the icon is the moon for dark and the sun for every other theme; the meta colour is the trimmed computed value, or the theme's fallback when that is blank |
| Theme.Init | script.js:289-294 | load keeps the stored value, resolves the theme and applies it, so the page shows the theme |
| Theme.OnToggle | script.js:296-300 | a toggle maps `"dark"` to `"light"` and anything else to `"dark"`, always stores the result and applies it |
| Theme.OnAmbientChange | script.js:302-308 | a platform change applies (and is applied) iff the stored value is missing or empty; storage is never written |
| Theme.ToggleTwiceRestores | script.js:296-300 | two toggles from light or dark come back to the starting theme |
| Theme.StoredChoiceIgnoresAmbient | script.js:302-308 | with a non-empty stored value, no sequence of platform changes moves the theme or rewrites the page |
| Theme.ExplicitChoiceOverridesPlatform | script.js:290-308 | with nothing stored and a dark platform the theme starts dark; after a toggle to light, later platform changes keep it light with `aria-pressed="false"` |
| Theme.RunKeepsReflected | script.js:292-324 | through any toggles and platform changes the theme stays light, dark or the stored string it came from, and `data-theme`/`aria-pressed` keep showing it |

## Left out

- The mouse-driven liquid distortion effect (script.js:216-233): it is floating-point `Math.sqrt` and `toFixed` arithmetic.
- Transition strings (script.js:197-199): the `i * 0.06` delay formatting is floating point. Only the ordinal `i` is kept, as `delayIndex`.
- Intersection geometry: the 12% and 50% thresholds and the `-50px` root margin are the platform's job. `isIntersecting` arrives as an input.
- `getBoundingClientRect`, `offsetTop`, `offsetHeight` and `pageYOffset`: these are integer parameters. The browser's fractional pixels are not modelled.
- `window.scrollTo` animation, `focus()` calls and the `tabindex` write: only the requested scroll goal is modelled.
- `document.querySelector(href)` (script.js:64): the element it finds is a parameter, the `found` map keyed by the whole href. Selector matching is not modelled. An href that is not a valid selector (`#2024`) throws before `preventDefault`; it has no entry in `found`, which gives the same outcome as an href that selects nothing.
- SmoothScroll.ScrollGoal: only the goal requested from `scrollTo` is stated, not where the page comes to rest. The browser clamps the goal to the scrollable range, and `target.focus()` (script.js:77) may scroll again.
- `console.log`, `FormData` and the logged record: none of them affects the page.
- Real timer scheduling: `setTimeout` is a pending record with its due time, fired by explicit `Tick` events.
- `localStorage` and `matchMedia` I/O: these are the `stored` option and boolean inputs. Writes to storage from other tabs are not modelled.
- Browsers without `MediaQueryList.addEventListener` (script.js:303): under the optional call no ambient listener is attached. The model assumes the listener exists.
- The computed `--color-background` value (script.js:316-318) is a parameter, because it comes from style sheets.
- Video `play()`: the returned promise and autoplay refusal are not modelled. Only the request and the class are recorded.
- Load-time guards for missing elements (script.js:8, 88, 135, 238, 270, 287): a missing element means no listener. This appears as `wired` in `MobileNav.Dispatch`, as `hasVideo` in `VideoAutoplay`, and is proved invisible for `ActiveNav`. For the others, the controller simply has no events.
- PlanPrefill: moving focus to the name field (script.js:277) is not modelled.
- ContactForm: a missing submit button (script.js:100) is modelled as the listener throwing at script.js:101 after `preventDefault`, so the form is left as it was. The uncaught exception itself is not modelled.
- ContactForm.RequestSubmit: the model assumes `button[type="submit"]` is the form's only submit control. In HTML a disabled submit button blocks only its own click, and blocks implicit (Enter-key) submission only when it is the form's default button. Another submit control would run the listener again while the confirmation shows, capturing "Message Sent!" as the original label (the outcome `ContactForm.UngatedResubmitKeepsConfirmation` shows). `StepPreservesQuiet` and `RunPreservesQuiet` hold under this assumption.

=== FILE: active_nav.dfy ===
/** The active-link highlighter (`initActiveNav`): on load and on every scroll
    event it finds the section whose trigger band contains the scroll offset
    and marks the navigation links that point at it with
    `aria-current="page"`. */
module ActiveNav {
  import opened Dom

  /** A `section[id]` as the handler sees it: its id and its `offsetTop` and
      `offsetHeight` in pixels. */
  datatype Section = Section(id: string, offsetTop: int, offsetHeight: int)

  /** A `.nav-link`: its `href` and its `aria-current` attribute, if any. */
  datatype Link = Link(href: string, ariaCurrent: Option<string>)

  /** The sticky-header allowance subtracted from each section's top. */
  const HeaderAllowance := 120

  /** The trigger band of a section is `[top - 120, top - 120 + height)`. */
  predicate InBand(s: Section, y: int) {
    s.offsetTop - HeaderAllowance <= y < s.offsetTop - HeaderAllowance + s.offsetHeight
  }

  /** Section `i` contains `y` and no later section does. */
  ghost predicate IsLastMatch(sections: seq<Section>, y: int, i: int) {
    && 0 <= i < |sections|
    && InBand(sections[i], y)
    && forall j :: i < j < |sections| ==> !InBand(sections[j], y)
  }

  /** The value of `current` after the `forEach` over the sections: starting
      from `""`, every section whose band contains `y` overwrites it, so the
      last match in document order wins. */
  function CurrentSection(sections: seq<Section>, y: int): (current: string)
    ensures (forall i :: 0 <= i < |sections| ==> !InBand(sections[i], y)) ==> current == ""
    ensures forall i :: IsLastMatch(sections, y, i) ==> current == sections[i].id
    decreases |sections|
  {
    if |sections| == 0 then ""
    else
      var prefix := sections[..|sections| - 1];
      var last := sections[|sections| - 1];
      if InBand(last, y) then last.id
      else
        assert forall i :: IsLastMatch(sections, y, i) ==> IsLastMatch(prefix, y, i);
        CurrentSection(prefix, y)
  }

  /** One more section in the scan: it overwrites `current` exactly when its
      band contains `y`. */
  lemma ScanStep(sections: seq<Section>, k: nat, y: int)
    requires k < |sections|
    ensures CurrentSection(sections[..k + 1], y)
      == if InBand(sections[k], y) then sections[k].id else CurrentSection(sections[..k], y)
  {
    assert sections[..k + 1][..k] == sections[..k];
  }

  /** The handler's loop, statement for statement; it computes the last
      match characterised by `CurrentSection`. */
  method ScanSections(sections: seq<Section>, y: int) returns (current: string)
    ensures current == CurrentSection(sections, y)
  {
    current := "";
    var k := 0;
    while k < |sections|
      invariant 0 <= k <= |sections|
      invariant current == CurrentSection(sections[..k], y)
    {
      var s := sections[k];
      var top := s.offsetTop - HeaderAllowance;
      var bottom := top + s.offsetHeight;
      if y >= top && y < bottom {
        current := s.id;
      }
      ScanStep(sections, k, y);
      k := k + 1;
    }
    assert sections[..k] == sections;
  }

  /** `setActive(id)`: every link loses `aria-current`, and exactly the links
      whose `href` is `#id` get `aria-current="page"`; hrefs are untouched. */
  function SetActive(links: seq<Link>, id: string): (r: seq<Link>)
    ensures |r| == |links|
    ensures forall k :: 0 <= k < |r| ==> r[k].href == links[k].href
    ensures forall k :: 0 <= k < |r| ==>
      (r[k].ariaCurrent.Some? <==> links[k].href == "#" + id)
    ensures forall k :: 0 <= k < |r| && r[k].ariaCurrent.Some? ==> r[k].ariaCurrent == Some("page")
  {
    seq(|links|, k requires 0 <= k < |links| =>
      Link(links[k].href, if links[k].href == "#" + id then Some("page") else None))
  }

  /** The scroll handler: find the current section and, when its id is
      non-empty, reflect it onto the links; otherwise leave them alone. With
      no section containing the offset (or a last match with an empty id) the
      links keep their `aria-current`; with a last match whose id is
      non-empty, exactly the links pointing at it carry `aria-current="page"`
      and all others have none. */
  function OnScroll(links: seq<Link>, sections: seq<Section>, y: int): (r: seq<Link>)
    ensures |r| == |links|
    ensures forall k :: 0 <= k < |r| ==> r[k].href == links[k].href
    ensures (forall i :: 0 <= i < |sections| ==> !InBand(sections[i], y)) ==> r == links
    ensures forall i :: IsLastMatch(sections, y, i) && sections[i].id == "" ==> r == links
    ensures forall i :: IsLastMatch(sections, y, i) && sections[i].id != "" ==>
      forall k :: 0 <= k < |r| ==>
        r[k].ariaCurrent == (if links[k].href == "#" + sections[i].id then Some("page") else None)
  {
    var current := CurrentSection(sections, y);
    if current != "" then SetActive(links, current) else links
  }

  /** Scrolling to the same offset twice is the same as once. */
  lemma OnScrollIdempotent(links: seq<Link>, sections: seq<Section>, y: int)
    ensures OnScroll(OnScroll(links, sections, y), sections, y) == OnScroll(links, sections, y)
  {
    var current := CurrentSection(sections, y);
    if current != "" {
      var r := SetActive(links, current);
      assert SetActive(r, current) == r;
    }
  }

  /** The load-time guard (`!sections.length || !links.length`) skips wiring
      the handler only where the handler would have had no effect anyway. */
  lemma GuardIsInvisible(links: seq<Link>, sections: seq<Section>, y: int)
    requires |sections| == 0 || |links| == 0
    ensures OnScroll(links, sections, y) == links
  {
  }

  /** The tie-break: three sections whose bands all contain the offset; the
      last one in document order wins. */
  lemma OverlappingBandsPickLast()
    ensures CurrentSection([Section("a", 0, 1000), Section("b", 100, 1000), Section("c", 200, 1000)], 150) == "c"
    ensures CurrentSection([Section("a", 0, 1000), Section("b", 100, 1000), Section("c", 2000, 1000)], 150) == "b"
    ensures CurrentSection([Section("a", 0, 100)], 200) == ""
  {
  }
}

=== FILE: contact_form.dfy ===
/** The contact form controller (`initContactForm`): a simulated submit that
    shows a confirmation on the submit button for three seconds, and per-field
    error borders driven by blur and input events. The three-second timer is
    an explicit event carrying the current time in milliseconds. */
module ContactForm {
  import opened Dom
  import Strings

  const SentLabel := "Message Sent!"
  const SentBackground := "var(--color-accent-green)"
  const ErrorBorder := "var(--color-accent-terra)"
  const ResetDelayMs := 3000

  /** The submit button: text (`textContent`), inline background colour and
      `disabled` flag. */
  datatype Button = Button(text: string, background: string, disabled: bool)

  /** An input or textarea: whether it is `required`, its current and default
      values (the default is what `form.reset()` restores) and its inline
      border colour (`""` when none is set). */
  datatype Field = Field(required: bool, value: string, defaultValue: string, borderColor: string)

  /** A scheduled `setTimeout` callback: the button label captured when the
      form was submitted, and the time the callback is due. */
  datatype Timer = Timer(originalLabel: string, due: int)

  /** The form, its submit button (`form.querySelector('button[type="submit"]')`,
      `None` when no button carries that attribute), its fields, and the
      restore callbacks still pending, oldest first. */
  datatype Form = Form(button: Option<Button>, fields: seq<Field>, pending: seq<Timer>)

  /** The submit listener at time `now`. With a submit button it captures the
      button's text, shows the confirmation, disables the button and schedules
      the restore; it never looks at field validity. Without one the listener
      throws at `button.textContent` right after `preventDefault`, so nothing
      is written and nothing is scheduled. */
  function OnSubmit(f: Form, now: int): (r: Form)
    ensures r.fields == f.fields
    ensures f.button.None? ==> r == f
    ensures f.button.Some? ==>
      && r.button.Some? && r.button.value.text == SentLabel && r.button.value.disabled
      && |r.pending| == |f.pending| + 1 && r.pending[..|f.pending|] == f.pending
      && r.pending[|f.pending|].originalLabel == f.button.value.text
      && r.pending[|f.pending|].due == now + ResetDelayMs
  {
    match f.button
    case None => f
    case Some(b) =>
      Form(Some(Button(SentLabel, SentBackground, true)), f.fields,
           f.pending + [Timer(b.text, now + ResetDelayMs)])
  }

  /** The form between events: without a submit button nothing is ever
      pending; with one, at most one restore is pending, and the button is
      disabled (showing the confirmation) exactly while one is. */
  predicate Quiet(f: Form) {
    match f.button
    case None => f.pending == []
    case Some(b) =>
      && |f.pending| <= 1
      && (b.disabled <==> |f.pending| == 1)
      && (b.disabled ==> b.text == SentLabel)
  }

  /** A submission attempt from the user. The form is taken to have this
      button as its only submit control: a disabled submit button then blocks
      both its own click and implicit submission, so the listener runs only
      while the button is enabled (or when there is no such button). */
  function RequestSubmit(f: Form, now: int): (r: Form)
    ensures f.button.Some? && f.button.value.disabled ==> r == f
    ensures Quiet(f) ==> Quiet(r)
    ensures Quiet(f) && f.button.Some? && !f.button.value.disabled ==>
      r.pending == [Timer(f.button.value.text, now + ResetDelayMs)]
  {
    if f.button.Some? && f.button.value.disabled then f else OnSubmit(f, now)
  }

  /** `form.reset()`: every field returns to its default value; inline
      styles such as the border colour are not form state and stay. */
  function ResetFields(fields: seq<Field>): seq<Field> {
    seq(|fields|, i requires 0 <= i < |fields| => fields[i].(value := fields[i].defaultValue))
  }

  /** The oldest pending callback is due at `now`. */
  predicate Due(f: Form, now: int) {
    |f.pending| > 0 && f.pending[0].due <= now
  }

  /** The clock reaching `now`: the oldest pending callback runs if it is due,
      resetting the form, restoring the captured label, clearing the
      background and enabling the button. */
  function OnTimer(f: Form, now: int): (r: Form)
    ensures !Due(f, now) ==> r == f
    ensures Quiet(f) ==> Quiet(r)
    ensures |r.fields| == |f.fields|
    ensures Due(f, now) ==> forall i :: 0 <= i < |f.fields| ==>
      && r.fields[i].value == f.fields[i].defaultValue
      && r.fields[i].defaultValue == f.fields[i].defaultValue
      && r.fields[i].required == f.fields[i].required
      && r.fields[i].borderColor == f.fields[i].borderColor
    ensures Due(f, now) && f.button.Some? ==>
      r.button == Some(Button(f.pending[0].originalLabel, "", false)) && r.pending == f.pending[1..]
  {
    if Due(f, now) then
      var restored := match f.button
        case None => None
        case Some(_) => Some(Button(f.pending[0].originalLabel, "", false));
      Form(restored, ResetFields(f.fields), f.pending[1..])
    else f
  }

  /** The blur listener on field `i`: the error border is set exactly when the
      field is required and holds only white space (or nothing), and cleared
      in every other case; no other field, the button and the timers are
      untouched. */
  function OnBlur(f: Form, i: nat): (r: Form)
    requires i < |f.fields|
    ensures |r.fields| == |f.fields|
    ensures r.fields[i].borderColor == ErrorBorder
      <==> f.fields[i].required && Strings.AllWhitespace(f.fields[i].value)
    ensures r.fields[i].borderColor == ""
      <==> !(f.fields[i].required && Strings.AllWhitespace(f.fields[i].value))
    ensures r.fields[i] == f.fields[i].(borderColor := r.fields[i].borderColor)
    ensures forall j :: 0 <= j < |f.fields| && j != i ==> r.fields[j] == f.fields[j]
    ensures r.button == f.button && r.pending == f.pending
  {
    var fld := f.fields[i];
    Strings.TrimEmptyIffAllWhitespace(fld.value);
    var border := if fld.required && Strings.Trim(fld.value) == "" then ErrorBorder else "";
    f.(fields := f.fields[i := fld.(borderColor := border)])
  }

  /** The input listener on field `i`, after the user's edit made its value
      `v`: the value is stored and no border is left, whatever the new value
      (the listener does not re-validate); nothing else changes. */
  function OnInput(f: Form, i: nat, v: string): (r: Form)
    requires i < |f.fields|
    ensures |r.fields| == |f.fields|
    ensures r.fields[i].borderColor == "" && r.fields[i].value == v
    ensures r.fields[i].required == f.fields[i].required
    ensures r.fields[i].defaultValue == f.fields[i].defaultValue
    ensures forall j :: 0 <= j < |f.fields| && j != i ==> r.fields[j] == f.fields[j]
    ensures r.button == f.button && r.pending == f.pending
  {
    var fld := f.fields[i].(value := v);
    var cleared := if fld.borderColor != "" then fld.(borderColor := "") else fld;
    f.(fields := f.fields[i := cleared])
  }

  datatype Event = Submit | Tick | Blur(field: nat) | Input(field: nat, value: string)

  /** One event at time `now`; blur and input on a field that does not exist
      are not events of this page. */
  function Step(f: Form, now: int, e: Event): Form {
    match e
    case Submit => RequestSubmit(f, now)
    case Tick => OnTimer(f, now)
    case Blur(i) => if i < |f.fields| then OnBlur(f, i) else f
    case Input(i, v) => if i < |f.fields| then OnInput(f, i, v) else f
  }

  /** Every event keeps the form quiet. */
  lemma StepPreservesQuiet(f: Form, now: int, e: Event)
    requires Quiet(f)
    ensures Quiet(Step(f, now, e))
  {
  }

  /** Events at given times (in milliseconds), in order. */
  function Run(f: Form, events: seq<(int, Event)>): Form
    decreases |events|
  {
    if |events| == 0 then f else Run(Step(f, events[0].0, events[0].1), events[1..])
  }

  /** A form stays quiet through any sequence of events: the confirmation is
      never shown without a pending restore, and never more than one restore
      is pending. */
  lemma {:induction false} RunPreservesQuiet(f: Form, events: seq<(int, Event)>)
    requires Quiet(f)
    ensures Quiet(Run(f, events))
    decreases |events|
  {
    if |events| > 0 {
      StepPreservesQuiet(f, events[0].0, events[0].1);
      RunPreservesQuiet(Step(f, events[0].0, events[0].1), events[1..]);
    }
  }

  /** The form as loaded (submit button enabled, or absent; nothing pending)
      is quiet. */
  lemma LoadedFormIsQuiet(button: Option<Button>, fields: seq<Field>)
    requires button.Some? ==> !button.value.disabled
    ensures Quiet(Form(button, fields, []))
  {
  }

  /** Submitting disables the button and shows the confirmation; a second
      submission while the confirmation is shown changes nothing. */
  lemma SubmitShowsConfirmationOnce(f: Form, now: int, later: int)
    requires f.button.Some? && !f.button.value.disabled
    ensures var r := RequestSubmit(f, now);
      && r.button == Some(Button(SentLabel, SentBackground, true))
      && RequestSubmit(r, later) == r
  {
  }

  /** Without a submit button the listener fails before writing anything, so
      no submission ever shows a confirmation or schedules a restore. */
  lemma NoSubmitButtonNoConfirmation(f: Form, events: seq<(int, Event)>)
    requires f.button.None? && f.pending == []
    ensures Run(f, events).button.None? && Run(f, events).pending == []
  {
    RunPreservesQuiet(f, events);
    NoButtonStaysAbsent(f, events);
  }

  lemma {:induction false} NoButtonStaysAbsent(f: Form, events: seq<(int, Event)>)
    requires f.button.None?
    ensures Run(f, events).button.None?
    decreases |events|
  {
    if |events| > 0 {
      NoButtonStaysAbsent(Step(f, events[0].0, events[0].1), events[1..]);
    }
  }

  /** Three seconds after a submission the original label comes back, the
      button is enabled again and its background cleared, and every field's
      value is back at its default while its other properties — including an
      error border — stay; one millisecond earlier nothing happens. */
  lemma TimerRestoresButton(f: Form, now: int)
    requires Quiet(f) && f.button.Some? && !f.button.value.disabled
    ensures var s := RequestSubmit(f, now);
      && OnTimer(s, now + ResetDelayMs - 1) == s
      && OnTimer(s, now + ResetDelayMs).button == Some(Button(f.button.value.text, "", false))
      && OnTimer(s, now + ResetDelayMs).pending == []
      && |OnTimer(s, now + ResetDelayMs).fields| == |f.fields|
      && forall i :: 0 <= i < |f.fields| ==>
           var fld := OnTimer(s, now + ResetDelayMs).fields[i];
           && fld.value == f.fields[i].defaultValue
           && fld.required == f.fields[i].required
           && fld.defaultValue == f.fields[i].defaultValue
           && fld.borderColor == f.fields[i].borderColor
  {
  }

  /** A required field left blank and flagged by blur keeps its error border
      after the restore, although its value goes back to the default:
      `form.reset()` fires no `input` event, so nothing clears the border. */
  lemma FlaggedFieldKeepsBorderAfterRestore(f: Form, now: int, i: nat)
    requires Quiet(f) && f.button.Some? && !f.button.value.disabled
    requires i < |f.fields| && f.fields[i].required && Strings.AllWhitespace(f.fields[i].value)
    ensures var s := OnTimer(RequestSubmit(OnBlur(f, i), now), now + ResetDelayMs);
      && s.fields[i].borderColor == ErrorBorder
      && s.fields[i].value == f.fields[i].defaultValue
  {
    TimerRestoresButton(OnBlur(f, i), now);
  }

  /** Why the disabled gate matters: were the listener to run twice before the
      restore, the second run would capture the confirmation text as the
      "original" label, and after both restores the button would keep saying
      "Message Sent!". */
  lemma UngatedResubmitKeepsConfirmation(f: Form, now: int)
    requires f.pending == [] && f.button.Some?
    ensures var s := OnSubmit(OnSubmit(f, now), now);
      OnTimer(OnTimer(s, now + ResetDelayMs), now + ResetDelayMs).button.value.text == SentLabel
  {
  }
}

=== FILE: dom.dfy ===
/** Values the page's handlers read from and write to the document, reduced to
    the few JavaScript notions they depend on: an attribute or property that may
    be absent (`null`/`undefined`), the truthiness of such a string value, and the
    text `String(b)` gives for a boolean. */
module Dom {

  /** An attribute, data property or stored value that may be missing. */
  datatype Option<+T> = None | Some(value: T)

  /** JavaScript truthiness of a string-or-null value: `null`, `undefined`
      and the empty string are falsy, every other string is truthy. */
  predicate Truthy(v: Option<string>) {
    v.Some? && v.value != ""
  }

  /** `v || fallback` for a string-or-null `v`. */
  function OrElse(v: Option<string>, fallback: string): (r: string)
    ensures Truthy(v) ==> r == v.value
    ensures !Truthy(v) ==> r == fallback
    ensures fallback != "" ==> r != ""
  {
    if Truthy(v) then v.value else fallback
  }

  /** `String(b)` for a boolean `b`. */
  function BoolText(b: bool): string {
    if b then "true" else "false"
  }

  /** `String(b) === "true"` recovers `b`, so writing a flag as text and reading
      it back with `=== "true"` is lossless. */
  lemma BoolTextRoundTrip(b: bool)
    ensures (BoolText(b) == "true") == b
    ensures BoolText(b) == "true" || BoolText(b) == "false"
  {
  }
}

=== FILE: header_scroll.dfy ===
/** The header controller (`initHeaderScroll`): the header carries the class
    `scrolled` exactly while the page is scrolled strictly more than 50 pixels.
    The same handler runs once at load and on every scroll event. */
module HeaderScroll {

  const ScrollThreshold := 50
  const ScrolledClass := "scrolled"

  /** `classList.toggle(name, force)`: adds `name` when `force` holds and
      removes it otherwise; no other class is touched. */
  function ToggleClass(classes: set<string>, name: string, force: bool): (r: set<string>)
    ensures name in r <==> force
    ensures forall c :: c != name ==> (c in r <==> c in classes)
  {
    if force then classes + {name} else classes - {name}
  }

  /** The scroll handler applied to the header's class list at scroll offset `y`. */
  function OnScroll(classes: set<string>, y: int): (r: set<string>)
    ensures ScrolledClass in r <==> y > ScrollThreshold
    ensures forall c :: c != ScrolledClass ==> (c in r <==> c in classes)
  {
    ToggleClass(classes, ScrolledClass, y > ScrollThreshold)
  }

  /** The threshold is strict: 50 is not scrolled, 51 is; and once scrolled at
      some offset, the header is scrolled at every larger offset. */
  lemma ThresholdIsStrictAndMonotone(classes: set<string>, y1: int, y2: int)
    requires y1 <= y2
    ensures ScrolledClass !in OnScroll(classes, 50)
    ensures ScrolledClass in OnScroll(classes, 51)
    ensures ScrolledClass in OnScroll(classes, y1) ==> ScrolledClass in OnScroll(classes, y2)
  {
  }

  /** The header's state depends only on the latest offset, not on history:
      the load-time call and any earlier scroll events are overwritten. */
  lemma LatestOffsetWins(classes: set<string>, y1: int, y2: int)
    ensures OnScroll(OnScroll(classes, y1), y2) == OnScroll(classes, y2)
  {
  }
}

=== FILE: mobile_nav.dfy ===
/** The mobile navigation controller (`initMobileNav`): a menu whose open state
    is written to three places at once — the `active` class of the nav, the
    `aria-expanded` attribute of the toggle button, and the body's `overflow`
    style, which is `"hidden"` while the menu is open to lock page scrolling. */
module MobileNav {
  import opened Dom

  /** What the handlers read and write. `ariaExpanded` is `None` while the
      markup carries no `aria-expanded` attribute. */
  datatype NavState = NavState(active: bool, ariaExpanded: Option<string>, overflow: string)

  /** Where a click lands, as far as the handlers can tell: on (or inside) the
      toggle button, on a `.nav-link`, elsewhere inside the nav, or outside
      both the nav and the toggle. */
  datatype Target = ToggleButton | NavLink | InsideNav | Outside

  datatype Event = Click(target: Target) | KeyDown(key: string)

  const ScrollLocked := "hidden"

  /** The three places agree: the class says open exactly when the attribute
      says `"true"`, and scrolling is locked exactly while the menu is open. */
  predicate Consistent(s: NavState) {
    && (s.active <==> s.ariaExpanded == Some("true"))
    && s.overflow == (if s.active then ScrollLocked else "")
  }

  /** The state every closing handler writes. */
  const Closed := NavState(false, Some("false"), "")

  /** Toggle click: reads `aria-expanded`, writes its negation, flips the class
      with `classList.toggle` (independently of what the attribute said) and
      locks scrolling when the attribute said the menu was closed. */
  function OnToggleClick(s: NavState): (r: NavState)
    ensures r.active == !s.active
    ensures r.ariaExpanded == Some("true") || r.ariaExpanded == Some("false")
    ensures r.ariaExpanded == Some("true") <==> s.ariaExpanded != Some("true")
    ensures r.overflow == (if r.ariaExpanded == Some("true") then ScrollLocked else "")
    ensures Consistent(s) ==> Consistent(r)
  {
    var isExpanded := s.ariaExpanded == Some("true");
    NavState(!s.active, Some(BoolText(!isExpanded)), if isExpanded then "" else ScrollLocked)
  }

  /** Click on a `.nav-link`: unconditionally closes. */
  function OnLinkClick(s: NavState): (r: NavState)
    ensures !r.active && r.ariaExpanded == Some("false") && r.overflow == ""
    ensures Consistent(r)
  {
    Closed
  }

  /** The document-level click listener: closes only when the menu is open and
      the click is outside both the nav and the toggle. */
  function OnDocumentClick(s: NavState, t: Target): (r: NavState)
    ensures s.active && t == Outside ==> r == Closed && Consistent(r)
    ensures !(s.active && t == Outside) ==> r == s
  {
    var inNav := t == NavLink || t == InsideNav;
    var inToggle := t == ToggleButton;
    if s.active && !inNav && !inToggle then Closed else s
  }

  /** The document-level keydown listener: Escape closes an open menu. */
  function OnKeyDown(s: NavState, key: string): (r: NavState)
    ensures s.active && key == "Escape" ==> r == Closed && Consistent(r)
    ensures !(s.active && key == "Escape") ==> r == s
  {
    if key == "Escape" && s.active then Closed else s
  }

  /** One user event as the page dispatches it: a click runs the target's own
      listener first and then bubbles to the document listener. When the
      toggle or the nav is missing (`wired` false) no listener was attached. */
  function Dispatch(wired: bool, s: NavState, e: Event): (r: NavState)
    ensures !wired ==> r == s
    ensures Consistent(s) ==> Consistent(r)
  {
    if !wired then s
    else
      match e
      case Click(t) =>
        var s1 := if t == ToggleButton then OnToggleClick(s)
                  else if t == NavLink then OnLinkClick(s)
                  else s;
        OnDocumentClick(s1, t)
      case KeyDown(k) => OnKeyDown(s, k)
  }

  /** A sequence of events, handled one at a time in order. */
  function Run(wired: bool, s: NavState, es: seq<Event>): NavState
    decreases |es|
  {
    if |es| == 0 then s else Run(wired, Dispatch(wired, s, es[0]), es[1..])
  }

  /** A toggle click on a consistent state flips all three places together
      and leaves them consistent; the bubbling document listener does not
      undo it. */
  lemma ToggleFlipsAllThree(s: NavState)
    requires Consistent(s)
    ensures var r := Dispatch(true, s, Click(ToggleButton));
      && r.active == !s.active
      && (r.ariaExpanded == Some("true")) == !(s.ariaExpanded == Some("true"))
      && (r.overflow == ScrollLocked) == !(s.overflow == ScrollLocked)
      && Consistent(r)
  {
  }

  /** Any sequence of events keeps the three places in agreement, so scroll
      lock is on exactly while the menu is open. */
  lemma {:induction false} RunPreservesConsistent(wired: bool, s: NavState, es: seq<Event>)
    requires Consistent(s)
    ensures Consistent(Run(wired, s, es))
    ensures Run(wired, s, es).active <==> Run(wired, s, es).overflow == ScrollLocked
    decreases |es|
  {
    if |es| > 0 {
      RunPreservesConsistent(wired, Dispatch(wired, s, es[0]), es[1..]);
    }
  }

  /** A nav-link click always leaves the menu closed, whatever the state. An
      outside click or Escape leaves it closed too, and when the menu was
      already closed they change nothing at all. */
  lemma ClosingEventsClose(s: NavState, key: string)
    ensures Dispatch(true, s, Click(NavLink)) == Closed
    ensures s.active ==> Dispatch(true, s, Click(Outside)) == Closed
    ensures s.active && key == "Escape" ==> Dispatch(true, s, KeyDown(key)) == Closed
    ensures !s.active ==> Dispatch(true, s, Click(Outside)) == s
    ensures !s.active ==> Dispatch(true, s, KeyDown(key)) == s
    ensures Closed.ariaExpanded == Some("false") && Closed.overflow == "" && !Closed.active
  {
  }

  /** Clicks inside the nav that are not on a link, and keys other than Escape,
      leave the menu as it is. */
  lemma OtherEventsIgnored(s: NavState, key: string)
    requires key != "Escape"
    ensures Dispatch(true, s, Click(InsideNav)) == s
    ensures Dispatch(true, s, KeyDown(key)) == s
  {
  }

  /** Two toggle clicks cancel out once the attribute holds `"true"` or
      `"false"`. */
  lemma ToggleTwiceIsIdentity(s: NavState)
    requires Consistent(s)
    requires s.ariaExpanded == Some("true") || s.ariaExpanded == Some("false")
    ensures Run(true, s, [Click(ToggleButton), Click(ToggleButton)]) == s
  {
    assert [Click(ToggleButton), Click(ToggleButton)][1..] == [Click(ToggleButton)];
  }

  /** Why every handler must write all three places: the toggle handler reads
      the attribute but flips the class, so once class and attribute disagree,
      toggling keeps them disagreeing; only a closing handler re-synchronises. */
  lemma ToggleKeepsDisagreement(s: NavState)
    requires s.active != (s.ariaExpanded == Some("true"))
    ensures var r := OnToggleClick(s); r.active != (r.ariaExpanded == Some("true"))
    ensures Consistent(OnLinkClick(s))
  {
  }

  /** A freshly loaded page (class absent, attribute absent or `"false"`,
      no inline overflow) is consistent. */
  lemma InitialPageConsistent(aria: Option<string>)
    requires aria == None || aria == Some("false")
    ensures Consistent(NavState(false, aria, ""))
  {
  }
}

=== FILE: plan_prefill.dfy ===
/** The plan prefill controller (`initPricingPrefill`): choosing a pricing plan
    overwrites the contact message with a fixed sentence naming the plan. */
module PlanPrefill {
  import opened Dom

  const DefaultPlan := "Starter"
  const Opening := "Hi! I'm interested in the "
  const Closing := " plan. Please share more details."

  /** `btn.dataset.plan || "Starter"`: a missing or empty `data-plan` falls
      back to the default. */
  function ChosenPlan(dataPlan: Option<string>): (plan: string)
    ensures plan != ""
    ensures Truthy(dataPlan) ==> plan == dataPlan.value
    ensures !Truthy(dataPlan) ==> plan == DefaultPlan
  {
    OrElse(dataPlan, DefaultPlan)
  }

  /** The new message value; the previous value is discarded. It opens and
      closes with the template's fixed text and names the chosen plan in
      between. */
  function Message(dataPlan: Option<string>): (m: string)
    ensures |m| == |Opening| + |ChosenPlan(dataPlan)| + |Closing|
    ensures m[..|Opening|] == Opening
    ensures m[|m| - |Closing|..] == Closing
    ensures m[|Opening|..|m| - |Closing|] == ChosenPlan(dataPlan)
  {
    var m := Opening + ChosenPlan(dataPlan) + Closing;
    assert m[..|Opening|] == Opening;
    assert m[|m| - |Closing|..] == Closing;
    assert m[|Opening|..|m| - |Closing|] == ChosenPlan(dataPlan);
    m
  }

  /** Reads the plan back out of a message, if it has the template's shape. */
  function PlanOf(message: string): (plan: Option<string>)
    ensures plan.Some? ==> Opening + plan.value + Closing == message
  {
    var n := |message|;
    if n >= |Opening| + |Closing|
       && message[..|Opening|] == Opening
       && message[n - |Closing|..] == Closing
    then
      var plan := message[|Opening|..n - |Closing|];
      assert message == message[..|Opening|] + plan + message[n - |Closing|..];
      Some(plan)
    else None
  }

  /** The message names exactly the chosen plan: reading it back gives the
      `data-plan` value, or "Starter" when that is missing or empty. */
  lemma MessageNamesPlan(dataPlan: Option<string>)
    ensures PlanOf(Message(dataPlan)) == Some(ChosenPlan(dataPlan))
    ensures !Truthy(dataPlan) ==> PlanOf(Message(dataPlan)) == Some(DefaultPlan)
  {
  }

  /** Conversely, every message that reads back a non-empty plan is the
      message that plan's button writes, so the template is injective. */
  lemma PlanOfInvertsMessage(message: string, plan: string)
    requires PlanOf(message) == Some(plan) && plan != ""
    ensures Message(Some(plan)) == message
  {
  }
}

=== FILE: reveal.dfy ===
/** The fade-in engine (`initAnimations`): unless the user asks for reduced
    motion, every reveal target starts hidden and offset, and the first time
    the viewport watcher reports it intersecting it is shown and no longer
    watched. Elements are numbered by position in `styles`; the targets are element
    numbers in collection order (sections, pricing cards, section titles,
    about images), and an element matching two selectors appears twice. */
module Reveal {
  import opened Dom

  const HiddenOpacity := "0"
  const HiddenTransform := "translateY(16px)"
  const ShownOpacity := "1"
  const ShownTransform := "translateY(0)"

  /** An element's inline style as far as the engine writes it. The transition
      string is reduced to the ordinal that scales its delay. */
  datatype Style = Style(opacity: string, transform: string, delayIndex: Option<nat>)

  /** The page's element styles and the set of elements the watcher observes. */
  datatype Engine = Engine(styles: seq<Style>, observed: set<nat>)

  /** One entry of an observer callback. */
  datatype Entry = Entry(target: nat, isIntersecting: bool)

  predicate IsHidden(s: Style) {
    s.opacity == HiddenOpacity && s.transform == HiddenTransform
  }

  predicate IsShown(s: Style) {
    s.opacity == ShownOpacity && s.transform == ShownTransform
  }

  predicate ValidTargets(styles: seq<Style>, targets: seq<nat>) {
    forall k :: 0 <= k < |targets| ==> targets[k] < |styles|
  }

  /** `k` is the last position of element `e` in `targets`. */
  ghost predicate IsLastPosition(targets: seq<nat>, e: nat, k: nat) {
    k < |targets| && targets[k] == e && forall j :: k < j < |targets| ==> targets[j] != e
  }

  /** The initial `forEach((el, i) => …)`: each target is hidden and offset
      and given ordinal `i`; a duplicated element keeps the later ordinal.
      Elements that are not targets are untouched. */
  function HideTargets(styles: seq<Style>, targets: seq<nat>): (r: seq<Style>)
    requires ValidTargets(styles, targets)
    ensures |r| == |styles|
    ensures forall e :: 0 <= e < |styles| && e !in targets ==> r[e] == styles[e]
    ensures forall k :: 0 <= k < |targets| ==>
      IsHidden(r[targets[k]]) && r[targets[k]].delayIndex.Some?
      && IsLastPosition(targets, targets[k], r[targets[k]].delayIndex.value)
    decreases |targets|
  {
    if |targets| == 0 then styles
    else
      var n := |targets| - 1;
      var prefix := targets[..n];
      var r := HideTargets(styles, prefix);
      assert forall k :: 0 <= k < n ==> prefix[k] == targets[k];
      r[targets[n] := Style(HiddenOpacity, HiddenTransform, Some(n))]
  }

  /** Page load: with reduced motion the engine returns before touching
      anything and observes nothing; otherwise it hides the targets and
      observes each of them. */
  function Init(reducedMotion: bool, styles: seq<Style>, targets: seq<nat>): (r: Engine)
    requires ValidTargets(styles, targets)
    ensures reducedMotion ==> r.styles == styles && r.observed == {}
    ensures !reducedMotion ==> forall e :: e in r.observed <==> e in targets
  {
    if reducedMotion then Engine(styles, {})
    else Engine(HideTargets(styles, targets), set e | e in targets)
  }

  /** The observer callback: each intersecting entry shows its target and
      unobserves it; non-intersecting entries do nothing. */
  function Callback(g: Engine, entries: seq<Entry>): (r: Engine)
    requires forall k :: 0 <= k < |entries| ==> entries[k].target < |g.styles|
    ensures |r.styles| == |g.styles|
    ensures forall e :: 0 <= e < |g.styles| ==>
      if (exists k :: 0 <= k < |entries| && entries[k] == Entry(e, true))
      then r.styles[e] == g.styles[e].(opacity := ShownOpacity, transform := ShownTransform)
      else r.styles[e] == g.styles[e]
    ensures forall e :: e in r.observed <==>
      e in g.observed && !(exists k :: 0 <= k < |entries| && entries[k] == Entry(e, true))
    decreases |entries|
  {
    if |entries| == 0 then g
    else
      var en := entries[0];
      var g1 := if en.isIntersecting
        then Engine(g.styles[en.target := g.styles[en.target].(opacity := ShownOpacity, transform := ShownTransform)],
                    g.observed - {en.target})
        else g;
      var r := Callback(g1, entries[1..]);
      assert forall k :: 1 <= k < |entries| ==> entries[k] == entries[1..][k - 1];
      r
  }

  /** What the platform delivers: entries only for elements still observed
      when the batch is assembled. Whether an entry is intersecting (the 12%
      threshold and the 50px bottom margin) is the platform's decision. */
  function Deliver(g: Engine, entries: seq<Entry>): (r: Engine)
    requires forall e :: e in g.observed ==> e < |g.styles|
    ensures |r.styles| == |g.styles|
    ensures r.observed <= g.observed
    ensures forall e :: 0 <= e < |g.styles| && e !in g.observed ==> r.styles[e] == g.styles[e]
    ensures forall e :: e in g.observed && Entry(e, true) in entries ==>
      e !in r.observed && r.styles[e] == g.styles[e].(opacity := ShownOpacity, transform := ShownTransform)
    ensures forall e :: e in g.observed && Entry(e, true) !in entries ==>
      e in r.observed && r.styles[e] == g.styles[e]
  {
    var delivered := StillObserved(g, entries);
    assert forall e :: e in g.observed && Entry(e, true) in entries ==>
      exists k :: 0 <= k < |delivered| && delivered[k] == Entry(e, true) by {
      forall e | e in g.observed && Entry(e, true) in entries
        ensures exists k :: 0 <= k < |delivered| && delivered[k] == Entry(e, true)
      {
        assert Entry(e, true) in delivered;
      }
    }
    Callback(g, delivered)
  }

  /** The entries of a batch whose targets are observed. */
  function StillObserved(g: Engine, entries: seq<Entry>): (r: seq<Entry>)
    ensures forall k :: 0 <= k < |r| ==> r[k].target in g.observed
    ensures forall en :: en in r <==> en in entries && en.target in g.observed
    decreases |entries|
  {
    if |entries| == 0 then []
    else
      var rest := StillObserved(g, entries[1..]);
      if entries[0].target in g.observed then [entries[0]] + rest else rest
  }

  /** Batches delivered one after another. */
  function DeliverAll(g: Engine, batches: seq<seq<Entry>>): (r: Engine)
    requires forall e :: e in g.observed ==> e < |g.styles|
    ensures |r.styles| == |g.styles|
    ensures r.observed <= g.observed
    decreases |batches|
  {
    if |batches| == 0 then g else DeliverAll(Deliver(g, batches[0]), batches[1..])
  }

  /** An element the watcher no longer observes (or never observed) keeps its
      style through any later deliveries. */
  lemma {:induction false} UnobservedIsFrozen(g: Engine, batches: seq<seq<Entry>>, e: nat)
    requires forall x :: x in g.observed ==> x < |g.styles|
    requires e < |g.styles| && e !in g.observed
    ensures DeliverAll(g, batches).styles[e] == g.styles[e]
    decreases |batches|
  {
    if |batches| > 0 {
      var g1 := Deliver(g, batches[0]);
      var d := StillObserved(g, batches[0]);
      assert !(exists k :: 0 <= k < |d| && d[k] == Entry(e, true));
      UnobservedIsFrozen(g1, batches[1..], e);
    }
  }

  /** With reduced motion, no element's style is ever written, whatever the
      platform reports. */
  lemma ReducedMotionTouchesNothing(styles: seq<Style>, targets: seq<nat>, batches: seq<seq<Entry>>)
    requires ValidTargets(styles, targets)
    ensures DeliverAll(Init(true, styles, targets), batches).styles == styles
  {
    var g := Init(true, styles, targets);
    var r := DeliverAll(g, batches);
    forall e | 0 <= e < |styles|
      ensures r.styles[e] == styles[e]
    {
      UnobservedIsFrozen(g, batches, e);
    }
  }

  /** Without reduced motion, every target starts hidden and observed, with
      its last collection ordinal as its delay index. */
  lemma InitHidesEveryTarget(styles: seq<Style>, targets: seq<nat>, k: nat)
    requires ValidTargets(styles, targets) && k < |targets|
    ensures var g := Init(false, styles, targets);
      && IsHidden(g.styles[targets[k]]) && targets[k] in g.observed
      && IsLastPosition(targets, targets[k], g.styles[targets[k]].delayIndex.value)
  {
  }

  /** One-shot reveal: an intersecting report for an observed element shows it
      and unobserves it, after which no later report can change its style. */
  lemma RevealIsOneShot(g: Engine, entries: seq<Entry>, later: seq<seq<Entry>>, e: nat)
    requires forall x :: x in g.observed ==> x < |g.styles|
    requires e in g.observed && Entry(e, true) in entries
    ensures var r := Deliver(g, entries);
      && IsShown(r.styles[e]) && e !in r.observed
      && DeliverAll(r, later).styles[e] == r.styles[e]
  {
    var d := StillObserved(g, entries);
    assert Entry(e, true) in d;
    var k :| 0 <= k < |d| && d[k] == Entry(e, true);
    var r := Deliver(g, entries);
    assert r.observed <= g.observed;
    UnobservedIsFrozen(r, later, e);
  }

  /** Every target is either still hidden and observed, or shown and no
      longer observed; nothing else is observed. */
  ghost predicate Settled(g: Engine, targets: seq<nat>) {
    && (forall e :: e in g.observed ==> e < |g.styles| && IsHidden(g.styles[e]) && e in targets)
    && (forall k :: 0 <= k < |targets| ==>
          targets[k] < |g.styles| && (targets[k] in g.observed || IsShown(g.styles[targets[k]])))
  }

  /** Page load without reduced motion settles the engine. */
  lemma InitSettles(styles: seq<Style>, targets: seq<nat>)
    requires ValidTargets(styles, targets)
    ensures Settled(Init(false, styles, targets), targets)
  {
    var g := Init(false, styles, targets);
    forall e | e in g.observed
      ensures e < |g.styles| && IsHidden(g.styles[e])
    {
      var k :| 0 <= k < |targets| && targets[k] == e;
    }
  }

  /** Each delivery keeps the engine settled: an element leaves the observed
      set only by being shown, and a shown element never becomes hidden. */
  lemma DeliverKeepsSettled(g: Engine, targets: seq<nat>, entries: seq<Entry>)
    requires Settled(g, targets)
    ensures Settled(Deliver(g, entries), targets)
  {
    var r := Deliver(g, entries);
    var d := StillObserved(g, entries);
    forall e | e in r.observed
      ensures e < |r.styles| && IsHidden(r.styles[e]) && e in targets
    {
      assert !(exists k :: 0 <= k < |d| && d[k] == Entry(e, true));
    }
    forall k | 0 <= k < |targets|
      ensures targets[k] < |r.styles| && (targets[k] in r.observed || IsShown(r.styles[targets[k]]))
    {
      var e := targets[k];
      if e !in r.observed && e in g.observed {
        assert exists j :: 0 <= j < |d| && d[j] == Entry(e, true);
      }
    }
  }
}

=== FILE: smooth_scroll.dfy ===
/** The smooth-scroll controller (`initSmoothScroll`): a click on an in-page
    anchor (`a[href^="#"]`) either suppresses the browser's jump and asks the
    window to scroll to the target's document offset less the fixed header's
    height, or lets the default navigation happen. Pixel values are integers. */
module SmoothScroll {
  import opened Dom

  /** What the handler reads from the page. `found` maps an href to the
      viewport-relative top (`getBoundingClientRect().top`) of the element
      `document.querySelector(href)` returns for it; an href that selects
      nothing has no entry, and neither has one that is not a valid selector
      (`querySelector` then throws before `preventDefault` is reached).
      `header` is the `.header`'s `offsetHeight` when there is one. */
  datatype Page = Page(found: map<string, int>, header: Option<nat>, pageYOffset: int)

  /** What the handler does: whether it calls `preventDefault`, and the
      `top` it passes to `window.scrollTo`, if it scrolls. */
  datatype Outcome = Outcome(preventDefault: bool, scrollTop: Option<int>)

  function HeaderHeight(p: Page): (h: nat)
    ensures p.header.None? ==> h == 0
    ensures p.header.Some? ==> h == p.header.value
  {
    match p.header
    case None => 0
    case Some(height) => height
  }

  /** The click handler, for a link whose `href` starts with `#`. */
  function OnAnchorClick(p: Page, href: string): (o: Outcome)
    requires |href| >= 1 && href[0] == '#'
    ensures href == "#" ==> o == Outcome(true, None)
    ensures href != "#" && href !in p.found ==> !o.preventDefault && o.scrollTop == None
    ensures href != "#" && href in p.found ==>
      o.preventDefault && o.scrollTop.Some?
  {
    if href == "#" then Outcome(true, None)
    else if href in p.found then
      var top := p.found[href];
      Outcome(true, Some(top + p.pageYOffset - HeaderHeight(p)))
    else Outcome(false, None)
  }

  /** The default navigation is suppressed exactly for the bare `#` and for
      links whose target exists; the handler scrolls only in the second case. */
  lemma PreventDefaultIffHandled(p: Page, href: string)
    requires |href| >= 1 && href[0] == '#'
    ensures OnAnchorClick(p, href).preventDefault <==> href == "#" || href in p.found
    ensures OnAnchorClick(p, href).scrollTop.Some? <==> href != "#" && href in p.found
  {
  }

  /** The requested scroll goal is the target's document offset (its viewport
      top plus the current scroll offset) less the header height, which is 0
      without a header. */
  lemma ScrollGoal(p: Page, href: string)
    requires |href| >= 1 && href[0] == '#' && href != "#" && href in p.found
    ensures OnAnchorClick(p, href).scrollTop == Some(p.found[href] + p.pageYOffset - HeaderHeight(p))
    ensures p.header.None? ==> OnAnchorClick(p, href).scrollTop == Some(p.found[href] + p.pageYOffset)
  {
  }

  /** The goal depends only on where the target sits in the document, not on
      how far the page is already scrolled: scrolling `d` pixels further moves
      every viewport top up by `d`, and the same link asks for the same goal. */
  lemma GoalIndependentOfCurrentScroll(p: Page, href: string, d: int)
    requires |href| >= 1 && href[0] == '#'
    ensures var moved := Page(map h | h in p.found :: p.found[h] - d, p.header, p.pageYOffset + d);
      OnAnchorClick(moved, href) == OnAnchorClick(p, href)
  {
  }
}

=== FILE: strings.dfy ===
/** `String.prototype.trim` of ECMAScript (ECMA-262), which the contact form
    uses to decide whether a required field is empty and the theme controller
    uses on the computed background colour. */
module Strings {

  /** The code points `trim` strips: the WhiteSpace production (tab, vertical
      tab, form feed, space, no-break space, byte order mark and the Unicode
      space separators) and the LineTerminator production (line feed, carriage
      return, line separator, paragraph separator). */
  predicate IsWhitespace(c: char) {
    || c == '\t' || c == '\U{000B}' || c == '\U{000C}' || c == ' '
    || c == '\U{00A0}' || c == '\U{FEFF}'
    || c == '\n' || c == '\r' || c == '\U{2028}' || c == '\U{2029}'
    || c == '\U{1680}' || ('\U{2000}' <= c <= '\U{200A}')
    || c == '\U{202F}' || c == '\U{205F}' || c == '\U{3000}'
  }

  ghost predicate AllWhitespace(s: string) {
    forall i :: 0 <= i < |s| ==> IsWhitespace(s[i])
  }

  /** Drops the leading white space: the result is the suffix of `s` that
      starts at its first non-white-space character. */
  function TrimStart(s: string): (r: string)
    ensures |r| <= |s| && r == s[|s| - |r|..]
    ensures forall i :: 0 <= i < |s| - |r| ==> IsWhitespace(s[i])
    ensures |r| > 0 ==> !IsWhitespace(r[0])
    decreases |s|
  {
    if |s| > 0 && IsWhitespace(s[0]) then TrimStart(s[1..]) else s
  }

  /** Drops the trailing white space: the result is the prefix of `s` that
      ends at its last non-white-space character. */
  function TrimEnd(s: string): (r: string)
    ensures |r| <= |s| && r == s[..|r|]
    ensures forall i :: |r| <= i < |s| ==> IsWhitespace(s[i])
    ensures |r| > 0 ==> !IsWhitespace(r[|r| - 1])
    decreases |s|
  {
    if |s| > 0 && IsWhitespace(s[|s| - 1]) then TrimEnd(s[..|s| - 1]) else s
  }

  /** `s.trim()`: the slice of `s` between its leading and its trailing
      white space. */
  function Trim(s: string): (r: string)
    ensures |r| <= |s|
    ensures |r| > 0 ==> !IsWhitespace(r[0]) && !IsWhitespace(r[|r| - 1])
    ensures var a := |s| - |TrimStart(s)|;
      && a + |r| <= |s| && r == s[a..a + |r|]
      && (forall i :: 0 <= i < a ==> IsWhitespace(s[i]))
      && (forall i :: a + |r| <= i < |s| ==> IsWhitespace(s[i]))
  {
    var t := TrimStart(s);
    var r := TrimEnd(t);
    forall i | |s| - |t| + |r| <= i < |s|
      ensures IsWhitespace(s[i])
    {
      assert s[i] == t[i - (|s| - |t|)];
    }
    r
  }

  /** `!s.trim()` holds exactly when `s` consists of white space only
      (including the empty string). */
  lemma TrimEmptyIffAllWhitespace(s: string)
    ensures Trim(s) == "" <==> AllWhitespace(s)
  {
  }

  /** Trimming twice is trimming once. */
  lemma TrimIdempotent(s: string)
    ensures Trim(Trim(s)) == Trim(s)
  {
    var r := Trim(s);
    if |r| > 0 {
      assert TrimStart(r) == r;
      assert TrimEnd(r) == r;
    }
  }
}

=== FILE: theme.dfy ===
/** The theme controller (`initThemeToggle`): a current theme name, the value
    stored under the `theme` key of local storage, and the attributes the
    page derives from the theme. */
module Theme {
  import opened Dom
  import Strings

  const Dark := "dark"
  const Light := "light"
  const DarkFallbackColor := "#1A1614"
  const LightFallbackColor := "#FAF8F6"

  /** What `applyTheme` writes: the document's `data-theme`, the toggle's
      `aria-pressed`, the icon's text when the icon exists, and the meta
      theme-color's `content` when that tag exists. */
  datatype Applied = Applied(dataTheme: string, ariaPressed: string, icon: Option<string>, metaContent: Option<string>)

  /** Which optional elements the page has: the `.theme-toggle-icon` inside
      the toggle and the `meta[name="theme-color"]` tag. */
  datatype Page = Page(hasIcon: bool, hasMeta: bool)

  /** `stored` is what `localStorage.getItem("theme")` returns (`None` for
      `null`); `theme` is the controller's `theme` variable; `applied` is
      what the last `applyTheme` call left on the page. */
  datatype ThemeState = ThemeState(stored: Option<string>, theme: string, applied: Applied)

  /** `saved || (prefersDark ? "dark" : "light")`: a non-empty stored value
      wins; otherwise the theme is dark exactly when the platform prefers
      dark. */
  function InitialTheme(saved: Option<string>, prefersDark: bool): (t: string)
    ensures Truthy(saved) ==> t == saved.value
    ensures !Truthy(saved) ==> (t == Dark <==> prefersDark) && (t == Light <==> !prefersDark)
    ensures t != ""
  {
    OrElse(saved, if prefersDark then Dark else Light)
  }

  /** `applyTheme(next)`, given the page's optional elements and the computed
      `--color-background` value. `aria-pressed` is `"true"` exactly for the
      dark theme and `"false"` otherwise; the meta colour is the trimmed
      computed background when that is not blank, and the theme's fallback
      colour when it is. */
  function Apply(next: string, page: Page, computedBackground: string): (a: Applied)
    ensures a.dataTheme == next
    ensures a.ariaPressed == "true" <==> next == Dark
    ensures a.ariaPressed == "false" <==> next != Dark
    ensures a.icon.Some? <==> page.hasIcon
    ensures a.icon.Some? ==> a.icon.value == (if next == Dark then "🌙" else "☀️")
    ensures a.metaContent.Some? <==> page.hasMeta
    ensures page.hasMeta && Strings.AllWhitespace(computedBackground) ==>
      a.metaContent == Some(if next == Dark then DarkFallbackColor else LightFallbackColor)
    ensures page.hasMeta && !Strings.AllWhitespace(computedBackground) ==>
      a.metaContent == Some(Strings.Trim(computedBackground)) && a.metaContent.value != ""
  {
    Strings.TrimEmptyIffAllWhitespace(computedBackground);
    var isDark := next == Dark;
    var bg := Strings.Trim(computedBackground);
    Applied(
      next,
      BoolText(isDark),
      if page.hasIcon then Some(if isDark then "🌙" else "☀️") else None,
      if page.hasMeta then Some(if bg != "" then bg else if isDark then DarkFallbackColor else LightFallbackColor) else None)
  }

  /** The page shows the controller's theme: `data-theme` is the theme and
      `aria-pressed` says `"true"` exactly when it is dark. */
  predicate Reflects(s: ThemeState) {
    s.applied.dataTheme == s.theme && (s.applied.ariaPressed == "true" <==> s.theme == Dark)
  }

  /** The theme is always light, dark, or the non-empty stored value it was
      read from. */
  predicate WellFormed(s: ThemeState) {
    s.theme == Light || s.theme == Dark || (Truthy(s.stored) && s.stored.value == s.theme)
  }

  /** Page load: resolve the theme and apply it. */
  function Init(saved: Option<string>, prefersDark: bool, page: Page, background: string): (s: ThemeState)
    ensures s.stored == saved && s.theme == InitialTheme(saved, prefersDark)
    ensures Reflects(s) && WellFormed(s)
  {
    var theme := InitialTheme(saved, prefersDark);
    ThemeState(saved, theme, Apply(theme, page, background))
  }

  /** The toggle click: `"dark"` becomes `"light"`, anything else (light, or
      an unexpected stored string) becomes `"dark"`; the new value is always
      stored and applied. */
  function OnToggle(s: ThemeState, page: Page, background: string): (r: ThemeState)
    ensures r.stored == Some(r.theme)
    ensures r.theme == Light <==> s.theme == Dark
    ensures r.theme == Dark <==> s.theme != Dark
    ensures Reflects(r) && WellFormed(r)
  {
    var next := if s.theme == Dark then Light else Dark;
    ThemeState(Some(next), next, Apply(next, page, background))
  }

  /** The colour-scheme change listener: it follows (and applies) the platform
      exactly while the stored value is missing or empty, and never writes
      storage. */
  function OnAmbientChange(s: ThemeState, matches: bool, page: Page, background: string): (r: ThemeState)
    ensures Truthy(s.stored) ==> r == s
    ensures !Truthy(s.stored) ==> r.theme == (if matches then Dark else Light) && Reflects(r)
    ensures r.stored == s.stored
    ensures Reflects(s) ==> Reflects(r)
    ensures WellFormed(s) ==> WellFormed(r)
  {
    if !Truthy(s.stored) then
      var next := if matches then Dark else Light;
      ThemeState(s.stored, next, Apply(next, page, background))
    else s
  }

  /** A user event, with the computed background at the time it happens. */
  datatype Event = Toggle(background: string) | AmbientChange(matches: bool, background: string)

  function Step(page: Page, s: ThemeState, e: Event): ThemeState {
    match e
    case Toggle(bg) => OnToggle(s, page, bg)
    case AmbientChange(m, bg) => OnAmbientChange(s, m, page, bg)
  }

  function Run(page: Page, s: ThemeState, es: seq<Event>): ThemeState
    decreases |es|
  {
    if |es| == 0 then s else Run(page, Step(page, s, es[0]), es[1..])
  }

  /** Two toggles from light or dark come back to the same theme. */
  lemma ToggleTwiceRestores(s: ThemeState, page: Page, bg1: string, bg2: string)
    requires s.theme == Light || s.theme == Dark
    ensures OnToggle(OnToggle(s, page, bg1), page, bg2).theme == s.theme
  {
  }

  /** After an explicit toggle the stored value is non-empty, so no sequence of
      ambient changes moves the theme or rewrites the page any more. */
  lemma {:induction false} StoredChoiceIgnoresAmbient(page: Page, s: ThemeState, es: seq<Event>)
    requires Truthy(s.stored)
    requires forall i :: 0 <= i < |es| ==> es[i].AmbientChange?
    ensures Run(page, s, es) == s
    decreases |es|
  {
    if |es| > 0 {
      StoredChoiceIgnoresAmbient(page, Step(page, s, es[0]), es[1..]);
    }
  }

  /** With nothing stored and the platform dark, the
      page starts dark; after the user toggles to light, later platform
      changes leave it light. */
  lemma ExplicitChoiceOverridesPlatform(page: Page, bg: string, es: seq<Event>)
    requires forall i :: 0 <= i < |es| ==> es[i].AmbientChange?
    ensures Init(None, true, page, bg).theme == Dark
    ensures OnToggle(Init(None, true, page, bg), page, bg).theme == Light
    ensures Run(page, OnToggle(Init(None, true, page, bg), page, bg), es).theme == Light
    ensures Run(page, OnToggle(Init(None, true, page, bg), page, bg), es).applied.ariaPressed == "false"
  {
    StoredChoiceIgnoresAmbient(page, OnToggle(Init(None, true, page, bg), page, bg), es);
  }

  /** Any sequence of toggles and ambient changes keeps the theme well formed
      and the page showing it. */
  lemma {:induction false} RunKeepsReflected(page: Page, s: ThemeState, es: seq<Event>)
    requires WellFormed(s) && Reflects(s)
    ensures WellFormed(Run(page, s, es)) && Reflects(Run(page, s, es))
    decreases |es|
  {
    if |es| > 0 {
      RunKeepsReflected(page, Step(page, s, es[0]), es[1..]);
    }
  }
}

=== FILE: video_autoplay.dfy ===
/** The background-video watcher (`videoAutoplayObserver`): while at least
    half of the video is visible it plays and carries the class `playing`;
    otherwise it is paused and the class is removed. Unlike the fade-in engine
    this is bidirectional. It is set up inside the fade-in engine, after the
    reduced-motion early return, so with reduced motion it does not exist. */
module VideoAutoplay {

  /** The video's `playing` class and whether the last media call was
      `play()` (true) or `pause()` (false). */
  datatype Video = Video(playingClass: bool, playRequested: bool)

  /** The watcher exists only without reduced motion and with a
      `#backgroundVideo` element. */
  predicate Watched(reducedMotion: bool, hasVideo: bool) {
    !reducedMotion && hasVideo
  }

  /** The callback over one batch of `isIntersecting` reports, in order:
      each report overwrites both the class and the media state, so the last
      report decides; an empty batch changes nothing. */
  function HandleVideo(v: Video, reports: seq<bool>): (r: Video)
    ensures r.playingClass == r.playRequested || r == v
    ensures |reports| > 0 ==> r.playingClass == reports[|reports| - 1]
    ensures |reports| > 0 ==> r.playRequested == reports[|reports| - 1]
    ensures |reports| == 0 ==> r == v
    decreases |reports|
  {
    if |reports| == 0 then v
    else
      var b := reports[0];
      HandleVideo(Video(b, b), reports[1..])
  }

  /** A batch as the page receives it: with no watcher nothing changes. */
  function OnReports(reducedMotion: bool, hasVideo: bool, v: Video, reports: seq<bool>): (r: Video)
    ensures !Watched(reducedMotion, hasVideo) || |reports| == 0 ==> r == v
    ensures Watched(reducedMotion, hasVideo) && |reports| > 0 ==>
      r.playingClass == reports[|reports| - 1] && r.playRequested == reports[|reports| - 1]
  {
    if Watched(reducedMotion, hasVideo) then HandleVideo(v, reports) else v
  }

  /** The class mirrors the most recent report in both directions: entering
      view marks it playing, leaving view unmarks it, however often. */
  lemma ClassFollowsLatestReport(v: Video, earlier: seq<bool>, latest: bool)
    ensures var r := OnReports(false, true, v, earlier + [latest]);
      && (r.playingClass <==> latest)
      && (r.playRequested <==> latest)
  {
  }

  /** With reduced motion the video is never started or marked by the watcher. */
  lemma ReducedMotionLeavesVideoAlone(hasVideo: bool, v: Video, reports: seq<bool>)
    ensures OnReports(true, hasVideo, v, reports) == v
  {
  }
}
